=== FILE: README.md ===
# transcodefs name resolution and format decision, in Dafny

transcodefs is a FUSE overlay. It shows a directory of audio files under
names whose extension reflects a target format (`.opus`) chosen by a bitrate
policy, while the files themselves stay as stored. This project models the
part of `transcodefs.c` that decides names:

- **Path translation** (`translate_path`). The backing root is prefixed to the
  virtual path, in a buffer with two spare bytes.
- **Extension rewriting** (`convert_path`). Modes 1, 2 and 3 replace everything
  from the last `.` with `.flac`, `.mp3` or `.ogg`.
- **The mode-0 decision.** After the media prober has answered, a `.flac` name
  becomes `.opus` unconditionally. Any other name becomes `.opus` when its first
  audio stream runs at the threshold or faster, counted in whole kbps.
- **Candidate chains** of the FUSE handlers:
  - `getattr` and `open` try the literal name, then `.flac`, then `.mp3`.
  - `readlink` tries `.flac`, then `.mp3`. It makes no separate literal attempt, but a
    candidate is the literal path when that path has no dot or already ends in the
    candidate's extension.
  - `read` tries the literal name only.
- **Listing names** (`readdir`). Each regular file and symbolic link is shown
  under its decided name. Every other kind is shown as it is stored.

The backing filesystem is an oracle (`Backing.Store`): a map from absolute
path to entry, plus a map of paths on which every call fails with a fixed
errno. Paths are compared as strings, with no collapsing of `//`. readlink(2)
follows Linux: the buffer size arrives as a signed 32-bit `int`, and one that
is not positive is refused with EINVAL before the path is looked at. The prober is a function parameter from URI to `ProbeResult`
(`ProbeFailed`, or the first stream's bitrate if there is one). Whether malloc
succeeds is a boolean of the environment. Handlers return what the C code
returns to FUSE: 0 or a byte count, or minus the errno.

Modules: `Results` (Option/Result), `Names` (last dot, extension rewrite),
`Translate` (configuration, buffers, `translate_path`, in-place rewrite),
`Backing` (store and system calls), `Convert` (probe results, decision,
`convert_path` as written), `Resolve` (first-match chains), `Handlers`
(getattr, open, read, readlink) and `Readdir` (readdir).

The handlers use the corrected conversion: `Names.ReplaceExt` builds a new
string, and `Convert.Decide` keeps dot-less names and files without an audio
stream unchanged. `Convert.ConvertInPlace` is `convert_path` as written, on the
fixed-size buffer. It can end in a NULL dereference or an overflow, and the
findings below are stated on it.

The model follows what the code does, even where a reader of the handlers
would expect otherwise:
- `getattr` on the stored name (`song.flac`) succeeds, because the literal
  name is tried first.
- No handler tries the `.ogg` candidate.
- `readlink` reads the literal path only through its `.flac` or `.mp3` candidate, so a stored
  link `/d/link` can be read but `/d/cover.jpg` cannot.
- A failed probe leaves even a `.flac` name unchanged.

The readdir loop is stated over a per-entry outcome (`Readdir.EntryOutcome`:
lstat's error, or the entry under its display name with its attributes), so
the loop and its listing do not depend on how a name is decided.

The last dot is searched for in the whole translated path, as `strrchr` does.
So a dot-less file name under a dotted directory is rewritten from that
directory's dot on.

## Model

| member | source | states |
|---|---|---|
| Names.LastDotBefore | transcodefs.c:126 | scanning back from position n finds a '.' before n with no '.' between it and n, and finds none exactly when the first n characters hold no '.' |
| Names.LastDot | transcodefs.c:126 | the index found holds a '.', no '.' follows it, and None exactly when the string has no '.' |
| Names.Suffix | transcodefs.c:158 | the extension compared against `.flac` is empty for a dot-less name; otherwise it starts with '.' and runs from the last dot to the end |
| Names.ReplaceExt | transcodefs.c:130-146 | everything before the last dot is kept, the new extension follows it, a dot-less name is untouched, and the rewritten name keeps the same last dot |
| Names.ReplaceExtTwice | transcodefs.c:244-249 | rewriting the `.flac` buffer to `.mp3` gives the same path as rewriting the original name to `.mp3` |
| Names.ReplaceExtIdempotent | transcodefs.c:130-146 | rewriting a name twice with the same extension changes nothing more |
| Names.ReplaceExtUnderPrefix | transcodefs.c:313-320 | rewriting a path whose last component has a dot leaves the directory prefix alone |
| Names.StemExtension | transcodefs.c:126 | a stem followed by an extension has its last dot where the extension starts and that extension as suffix, whatever dots the stem holds |
| Names.ExtensionSwap | transcodefs.c:244-249 | a name with one extension rewritten to another is the same stem with the other, as in `x.opus` to `x.flac` |
| Names.RenamedFindsStored | transcodefs.c:316-322 | a name renamed to `.opus`, rewritten back to its own extension under any directory prefix, is the stored path again |
| Translate.TranslatePath | transcodefs.c:98-112 | the backing root is followed by the virtual path, with exactly one byte spare after the terminator |
| Translate.RewriteInPlace | transcodefs.c:126-146 | the in-place strcpy stays in the allocation exactly when dot position + extension + terminator fit; otherwise it overflows; the capacity is unchanged |
| Translate.TranslatedRewriteFitsIff | transcodefs.c:100-104 | on a translated path, the in-place rewrite fits iff the new extension is at most one character longer than the old |
| Translate.Mp3ToFlacFits | transcodefs.c:100-104 | `.mp3` to `.flac`, the growth the sizing allows for, always fits |
| Translate.ShortExtensionOverflows | transcodefs.c:130-133 | a translated path whose extension has fewer than four characters overflows under the `.flac` rewrite |
| Translate.OverflowExample | transcodefs.c:130-133 | root "/m" and path "/a.b" overflow under the `.flac` rewrite |
| Convert.ModeExt | transcodefs.c:129-148 | only modes 1, 2 and 3 have a fixed extension, and each is a proper extension; every other mode goes to the prober |
| Convert.Decide | transcodefs.c:151-177 | the name becomes `.opus` exactly when the probe answered, the name has a dot, and it is `.flac` or the first stream is at least 1000 × threshold bit/s; otherwise it is unchanged |
| Convert.ProbeFailureKeepsName | transcodefs.c:151-155 | a failed probe keeps every name, `.flac` included |
| Convert.FlacAlwaysConverts | transcodefs.c:157-159 | a probed `.flac` name becomes `.opus` at any bitrate and with no stream, with its stem kept |
| Convert.ThresholdBoundary | transcodefs.c:167-177 | exactly the threshold converts; 999 bit/s short of the next whole kbps does not |
| Convert.BoundaryExample | transcodefs.c:157-177 | at 256 kbps, `a.flac` at 0 kbps and `b.mp3` at exactly 256 kbps are both shown as `.opus` |
| Convert.TrackExample | transcodefs.c:163-177 | at 256 kbps, `track.mp3` stays at 128 kbps and becomes `track.opus` at 320 kbps |
| Convert.DecideMonotone | transcodefs.c:175-177 | if a bitrate converts, every higher bitrate converts too |
| Convert.DecideIdempotent | transcodefs.c:151-177 | deciding again on a decided name changes nothing |
| Convert.DecideGrowth | transcodefs.c:159-176 | the decision keeps the stem and grows a name by at most one character when its extension has four or more |
| Convert.ConvertInPlace | transcodefs.c:115-181 | the capacity is unchanged; modes 1-3 rewrite to their extension; a failed probe keeps the buffer; a NULL dereference happens only in mode 0 on a dot-less name; with a stream, a completed rewrite agrees with Decide; a probed `.flac` name becomes `.opus` in place, with or without an audio stream, and never faults |
| Convert.FlacRewriteFits | transcodefs.c:158-159 | the `.flac` to `.opus` rewrite keeps the length and never overflows |
| Convert.DotlessAboveThresholdFaults | transcodefs.c:160-177 | a dot-less name whose stream clears the threshold reaches strcpy on NULL, while Decide keeps the name |
| Convert.StaleBitrateDecides | transcodefs.c:163-177 | with no audio stream, the uninitialised bitrate decides: at the threshold the name is rewritten, one below it is kept; Decide keeps it |
| Resolve.FirstHit | transcodefs.c:237-257 | the hit is the first candidate whose call succeeds; every earlier one failed; it fails only if every candidate fails, and then with the last one's error |
| Resolve.Candidates | transcodefs.c:236-253 | the chain starts at the literal path and has three entries; a rewrite differs from the literal only when the literal has a dot |
| Resolve.LinkCandidates | transcodefs.c:196-204 | readlink's chain is getattr's chain without the literal attempt |
| Resolve.LinkCandidatesLiteral | transcodefs.c:126-140 | readlink reads the literal path iff it has no dot or ends in `.flac` or `.mp3`; its first try is the literal iff there is no dot or it ends in `.flac` |
| Resolve.FirstHitAgrees | transcodefs.c:237-257 | resolution reads only the candidate paths: stores that agree there resolve alike |
| Resolve.FirstHitAppend | transcodefs.c:142-146 | a candidate appended at the end changes the answer only when every earlier one failed |
| Handlers.Getattr | transcodefs.c:223-282 | the straight-line chain of literal, `.flac` and `.mp3` attempts (candidates built as new strings) equals the first lstat hit among literal, `.flac` and `.mp3`; a total miss returns minus the `.mp3` error; an existing literal is returned unchanged; malloc failure gives -ENOMEM |
| Handlers.Open | transcodefs.c:337-398 | a literal error other than ENOENT is returned at once; otherwise the status is 0 iff literal, `.flac` or `.mp3` opens, and minus the `.mp3` error if none does |
| Handlers.Read | transcodefs.c:400-448 | an opened literal gives the pread count (never above size, -1 on failure); a missing literal gives 0; any other open error is returned negated |
| Handlers.LiteralPassthrough | transcodefs.c:236-238 | when the literal opens, getattr returns its attributes, open returns 0 and read reads it, with no rewrite |
| Handlers.ReadIgnoresCandidates | transcodefs.c:415-427 | read consults nothing but the literal path |
| Handlers.OpusNameOfStoredFlac | transcodefs.c:244-257 | a stored `x.flac` is found by getattr and open under `x.opus` and under its own name; read of `x.opus` returns 0 bytes |
| Handlers.ReadlinkLimit | transcodefs.c:198 | `size - 2` wraps as size_t and reaches the kernel as a 32-bit `int`: it is size - 2 for ordinary sizes, negative below 2, and a positive value never exceeds size - 2 |
| Handlers.ReadlinkNoRoom | transcodefs.c:198-220 | with size at most 2 both readlink calls are refused and the handler, as written or fixed, returns -EINVAL with no text |
| Handlers.LinkOf | transcodefs.c:198-214 | the link text is the whole target when it fits the readlink limit and exactly that many bytes otherwise, a prefix of the stored target, and shown under the mode-0 decision |
| Handlers.Readlink | transcodefs.c:183-221 | text is returned iff `.flac` or `.mp3` is a link readlink(2) can read into size - 2 bytes; found on `.flac` the status is 0; found on `.mp3` the status is minus the `.flac` error; a double miss returns minus the `.mp3` error, and -EINVAL when size - 2 is not a positive buffer size |
| Handlers.ReadlinkFixed | transcodefs.c:183-221 | same link text as Readlink; the status is 0 exactly when a link was read |
| Handlers.ReadlinkMp3ReportsError | transcodefs.c:198-220 | an `.mp3` link with no `.flac` sibling is read but reported as -ENOENT; the fixed version reports 0 |
| Handlers.ReadlinkTextFits | transcodefs.c:198-214 | whenever a link is returned, the text read leaves room for the terminator and one growth character; the shown text fits when its extension has four or more characters |
| Handlers.LinkTextFits | transcodefs.c:198-214 | one link's text cut to size - 2 bytes, and its decided form when the extension has four or more characters, fit the caller's buffer |
| Handlers.RealUnder | transcodefs.c:98-112 | translating a path with a name appended is translating the path and appending the name |
| Handlers.AllCandidates | transcodefs.c:142-146 | the chain extended with `.ogg` keeps getattr's three candidates first |
| Handlers.GetattrFixed | transcodefs.c:244-257 | agrees with getattr whenever getattr succeeds; otherwise it also tries the `.ogg` rewrite, so it is first-match over all four candidates |
| Readdir.EntryPath | transcodefs.c:299-314 | an entry path is the directory, '/' and the name when the name is within NAME_MAX, never longer than the allocation allows |
| Readdir.DisplayName | transcodefs.c:316-322 | only regular files and links go through the decision; the shown name is the stored one or its `.opus` rewrite; a failed probe shows it unchanged |
| Readdir.EntryOutcome | transcodefs.c:316-322 | an entry fails exactly when its lstat fails; otherwise it carries its display name and attributes |
| Readdir.ListEntries | transcodefs.c:310-325 | the listing never holds more entries than the directory has or the filler accepts, and its status is never positive |
| Readdir.ListEntriesMeaning | transcodefs.c:310-325 | the entries shown are the first ones in on-disk order, each as its outcome gives it; a negative status is the error of the first entry not shown; status 0 means all were shown or the filler filled up before an entry lstat finds |
| Readdir.Readdir | transcodefs.c:284-335 | malloc failure gives -ENOMEM; an opendir failure returns its error with nothing listed; otherwise the listing of the directory's entries |
| Readdir.ReaddirShows | transcodefs.c:310-325 | each entry readdir shows carries the decided name and lstat attributes of the stored entry at its position; a negative status is the lstat error of the first entry not shown |
| Readdir.ListEntriesAt | transcodefs.c:310-325 | one loop turn at entry k: the entry aborts the rest of the listing, stops it, or is shown ahead of the rest |
| Readdir.ListLoop | transcodefs.c:310-325 | the while loop over the entries computes exactly the listing |
| Readdir.ReaddirLoop | transcodefs.c:284-335 | the handler with its loop gives exactly the readdir answer |
| Readdir.ChildPath | transcodefs.c:313-314 | for a directory path `dir`, the path getattr translates for `dir/name` is the path readdir built with snprintf, when the name is within NAME_MAX |
| Readdir.FoundWhenCandidateExists | transcodefs.c:244-257 | getattr with the `.ogg` candidate succeeds as soon as any of its four candidates exists |
| Readdir.RenamedEntryResolves | transcodefs.c:316-322 | a stored `.flac`, `.mp3` or `.ogg` entry is found by getattr with the `.ogg` candidate under its `.opus` name |
| Readdir.RootEntryPath | transcodefs.c:313-314 | for the mount root "/", readdir stats `base//name`, a different string from the `base/name` getattr translates for "/name" |
| Readdir.ShownEntryFound | transcodefs.c:236-257 | a shown name whose stored entry sits beside it in the same backing directory is found by getattr with the `.ogg` candidate |
| Readdir.RootListedNameResolves | transcodefs.c:313-322 | for the mount root, on a backing filesystem that reads `base//name` as `base/name`, every name shown for a `.flac`, `.mp3` or `.ogg` file, or shown unchanged, is found by getattr of "/" + that name with the `.ogg` candidate |
| Readdir.ListedNameResolves | transcodefs.c:316-322 | every name the listing shows for a `.flac`, `.mp3` or `.ogg` file, or shows unchanged, is found by getattr with the `.ogg` candidate |
| Readdir.OggListedAsOpus | transcodefs.c:316-322 | a regular `t.ogg` whose first stream clears the threshold is listed as `t.opus` |
| Readdir.OggOpusNotFound | transcodefs.c:244-257 | with nothing stored as `t.opus`, `t.flac` or `t.mp3`, getattr as written reports the listed `t.opus` as -ENOENT |
| Readdir.OggOpusFoundWhenFixed | transcodefs.c:244-257 | in the same case, getattr with the `.ogg` candidate returns the attributes of the stored `t.ogg` |

## Left out

- statfs, release, init, option parsing, `usage` and `main`. statfs passes straight through to statvfs. release returns 0. The rest is startup and command-line handling.
- The syslog debug macros. The model assumes logging calls leave errno alone.
- GStreamer itself. The prober is a function parameter, and each probe is independent.
  - The `g_object_unref` of the shared discoverer after a failed probe (line 155) is not modelled. Later probes would use a released object.
  - The five-second probe timeout is not modelled.
- File descriptors, open flags, byte contents and `struct stat` fields. An entry has a kind, an abstract attribute with a size, and an optional open error. open follows no symbolic links; its outcome is the entry's own.
- The `double` type of `bitrate`. The quotient of an unsigned division is held as whole kbps.
- The commented-out transcoder. A read on a converted name returns 0 bytes, as the stubbed code does. `getattr` reports the stored file's size.
- Concurrency: FUSE may dispatch handlers on several threads, and they share the discoverer.
- Handlers.LinkOf: the mode-0 decision on the link text uses Convert.Decide rather than the in-place conversion, so the NULL dereference, stale bitrate and overflow cases live only in Convert.ConvertInPlace.
- Handlers.Readlink: the mode-0 decision on the link text uses Convert.Decide rather than the in-place conversion, so the NULL dereference, stale bitrate and overflow cases live only in Convert.ConvertInPlace.
- Readdir.DisplayName: the decision on `d_name` uses Convert.Decide rather than the in-place conversion. The overflow of `d_name`, the NULL `strcpy` on a dot-less name and the stale `bitrate` (transcodefs.c:167-176) live only in Convert.ConvertInPlace.
- Readdir.ListEntries: the decision on `d_name` uses Convert.Decide. So the in-place overflow of the 256-byte `d_name` for a 255-character `.mp3` name is not modelled there. Nor are the NULL `strcpy` on a dot-less name and the stale `bitrate` of a file without an audio stream (transcodefs.c:167-176); Convert.ConvertInPlace shows both.
- Handlers.Getattr: the `.flac` and `.mp3` candidates are built with Names.ReplaceExt as new strings. The in-place `strcpy` at transcodefs.c:132 into a buffer with two spare bytes, which overflows for a short extension such as `/a.b`, is not part of this member; Translate.RewriteInPlace and Translate.OverflowExample show it.
- Handlers.Open: the same holds as for Handlers.Getattr. Candidates are new strings, so the overflow of transcodefs.c:132 is not shown here.
- Handlers.Readlink: the same holds for the `.flac` and `.mp3` link candidates. The overflow of transcodefs.c:132 is not shown here.
- Handlers.Readlink: the final status is 0 after a link was read on the first attempt. The C code returns `-errno` at transcodefs.c:220 after the mode-0 probe of the link text. The model assumes the GStreamer discovery inside convert_path leaves errno at 0; an errno it sets would be returned.
- Handlers.ReadlinkFixed: its status 0 after a read link rests on the same assumption as Handlers.Readlink about errno after the probe.
- Readdir.ListEntriesMeaning: a full listing ends with status 0. In the C code, the loop ends when `readdir` returns NULL, and `-errno` is returned at transcodefs.c:334 after the probes of convert_path ran on the listed names. The model assumes those probes leave errno at 0.
- Readdir.ReaddirShows: the same assumption as Readdir.ListEntriesMeaning. An errno left by a probe during the listing is not modelled.
- Handlers.GetattrFixed: only the `.ogg` candidate is added. A regular file with another extension whose first stream clears the threshold (e.g. `t.wav`) is still listed as `t.opus`, and getattr on that name still reports -ENOENT.
- Handlers.Read: the `ssize_t` to `int` narrowing of the pread count is not modelled. FUSE read sizes stay far below `INT_MAX`.
- Handlers.ReadlinkLimit: the narrowing to `int` and the EINVAL for a buffer size that is not positive follow Linux's readlink(2). Other kernels are not modelled.
- Readdir.ChildPath: the store compares paths as strings. FUSE passes the mount root as "/", and readdir then stats `base//name`, while getattr of the root's child translates to `base/name`. The lemma's `dir + "/" + name` is the path FUSE sends only for a directory other than the root; Readdir.RootEntryPath states the root's mismatch.
- Readdir.RenamedEntryResolves: for the mount root it speaks of getattr of "//" + name, which FUSE does not send. Readdir.RootListedNameResolves covers the root, under the hypothesis that the backing filesystem reads `base//name` as `base/name`.
- Readdir.ListedNameResolves: the same holds as for Readdir.RenamedEntryResolves. The root case is Readdir.RootListedNameResolves.

## Findings

| source | as written | input that shows it | evidently intended | confidence | as-written member | corrected member |
|---|---|---|---|---|---|---|
| transcodefs.c:175-176 | `strcpy(ptr, ".opus")` runs without checking that `ptr` is non-NULL | a dot-less name (e.g. `README`) whose probe reports a first stream at or above the threshold | leave the name unchanged, as modes 1-3 do when there is no dot | not executed; high | Convert.DotlessAboveThresholdFaults | Convert.Decide |
| transcodefs.c:167-175 | `bitrate` is read uninitialised when the file has no audio stream | a non-`.flac` name whose probe succeeds with no audio stream | treat the bitrate as unknown and keep the name | not executed; high | Convert.StaleBitrateDecides | Convert.Decide |
| transcodefs.c:100-104 | two spare bytes assume an extension grows by at most one character | root `/m`, missing virtual path `/a.b`: getattr writes `/m/a.flac` plus its terminator (10 bytes) into 8 | build the candidate as a new string | not executed; high | Translate.OverflowExample | Names.ReplaceExt |
| transcodefs.c:198-220 | errno from the failed `.flac` readlink is not cleared before the `.mp3` attempt | `/x.opus` where `x.mp3` is a link and `x.flac` is missing: the link is read, yet -ENOENT is returned | return 0 once a link was read | not executed; high | Handlers.ReadlinkMp3ReportsError | Handlers.ReadlinkFixed |
| transcodefs.c:244-257 | getattr never tries `.ogg`, yet readdir lists a `.ogg` file above the threshold as `.opus` | a regular file `d/t.ogg` whose first stream clears the threshold, with no `t.opus`, `t.flac` or `t.mp3` beside it: readdir of `/d` shows `t.opus`, and getattr of `/d/t.opus` returns -ENOENT | try the `.ogg` candidate, so a listed `.opus` name that came from a `.flac`, `.mp3` or `.ogg` file can be looked up | not executed; medium | Readdir.OggOpusNotFound | Handlers.GetattrFixed |

=== FILE: backing.dfy ===
/**
 The backing filesystem as the handlers observe it through lstat, open,
 readlink, opendir/readdir and pread. Only outcomes are modelled: an entry's
 kind, an abstract attribute value and its size, and the errno a failing
 call sets.
 */
module Backing {
  import opened Results

  /** A positive errno value. */
  type Errno = e: nat | 0 < e witness 2

  /** Linux errno values the core produces or tests for. */
  const ENOENT: Errno := 2
  const ENOMEM: Errno := 12
  const ENOTDIR: Errno := 20
  const EINVAL: Errno := 22

  /** What a handler returns for an error: minus the errno. */
  function Neg(e: Errno): (r: int)
    ensures r < 0
  {
    -(e as int)
  }

  /** The part of `struct stat` the model keeps: a size and an identity. */
  datatype Attr = Attr(size: nat, ino: nat)

  /** What lstat reports an entry to be; a directory lists its names in on-disk order. */
  datatype Kind = Regular | Symlink(target: string) | Directory(names: seq<string>) | Special

  /** One entry; `openError` is set when the entry exists but cannot be opened. */
  datatype Node = Node(kind: Kind, attr: Attr, openError: Option<Errno>)

  /**
   The backing store: its entries by absolute path, and paths on which every
   call fails with a fixed error (a parent without search permission, say).
   */
  datatype Store = Store(nodes: map<string, Node>, denied: map<string, Errno>)

  /** lstat(2): the entry itself, not following a symbolic link. */
  function Lstat(st: Store, p: string): (r: Result<Node, Errno>)
    ensures r.Err? && p !in st.denied ==> r.error == ENOENT
    ensures r.Ok? <==> p !in st.denied && p in st.nodes
  {
    if p in st.denied then Err(st.denied[p])
    else if p in st.nodes then Ok(st.nodes[p])
    else Err(ENOENT)
  }

  /** open(2) with the handler's flags; the flags themselves are not modelled. */
  function Open(st: Store, p: string): (r: Result<Node, Errno>)
    ensures r.Ok? ==> Lstat(st, p) == r
    ensures Lstat(st, p).Err? ==> r == Lstat(st, p)
  {
    match Lstat(st, p)
    case Err(e) => Err(e)
    case Ok(n) => if n.openError.Some? then Err(n.openError.value) else Ok(n)
  }

  /** The entry readlink(2) can read: a symbolic link, or EINVAL for anything else. */
  function LinkNode(st: Store, p: string): (r: Result<Node, Errno>)
    ensures r.Ok? ==> Lstat(st, p) == r && r.value.kind.Symlink?
  {
    match Lstat(st, p)
    case Err(e) => Err(e)
    case Ok(n) => if n.kind.Symlink? then Ok(n) else Err(EINVAL)
  }

  /**
   readlink(2) with a buffer of `bufsiz` bytes, as Linux takes it: a size that
   is not positive is refused with EINVAL before the path is looked at.
   */
  function ReadlinkAt(st: Store, p: string, bufsiz: int): (r: Result<Node, Errno>)
    ensures bufsiz <= 0 ==> r == Err(EINVAL)
    ensures r.Ok? ==> 0 < bufsiz && Lstat(st, p) == r && r.value.kind.Symlink?
    ensures 0 < bufsiz && Lstat(st, p).Ok? && Lstat(st, p).value.kind.Symlink? ==> r.Ok?
  {
    if bufsiz <= 0 then Err(EINVAL) else LinkNode(st, p)
  }

  /** readlink(2) into `limit` bytes: the link text, silently cut to the limit. */
  function Truncate(target: string, limit: nat): (t: string)
    ensures |t| <= limit && |t| <= |target| && t == target[..|t|]
    ensures |target| <= limit ==> t == target
  {
    if |target| <= limit then target else target[..limit]
  }

  /** opendir(3) followed by readdir(3) to the end: the names in on-disk order. */
  function OpenDir(st: Store, p: string): (r: Result<seq<string>, Errno>)
    ensures r.Ok? ==> Lstat(st, p).Ok? && Lstat(st, p).value.kind == Directory(r.value)
  {
    match Lstat(st, p)
    case Err(e) => Err(e)
    case Ok(n) =>
      if n.openError.Some? then Err(n.openError.value)
      else if n.kind.Directory? then Ok(n.kind.names)
      else Err(ENOTDIR)
  }

  /**
   pread(2) of `size` bytes at `offset` on an opened entry: the byte count,
   short at the end of the file, or -1 on a directory.
   */
  function Pread(n: Node, size: nat, offset: nat): (r: int)
    ensures r == -1 <==> n.kind.Directory?
    ensures r >= 0 ==> r <= size && (r == 0 || offset + r <= n.attr.size)
  {
    if n.kind.Directory? then -1
    else if offset >= n.attr.size then 0
    else if size <= n.attr.size - offset then size
    else n.attr.size - offset
  }

  /** The calls a resolution chain can make against one candidate path. */
  datatype Call = LstatCall | OpenCall | ReadlinkCall(bufsiz: int)

  function Attempt(st: Store, c: Call, p: string): Result<Node, Errno>
  {
    match c
    case LstatCall => Lstat(st, p)
    case OpenCall => Open(st, p)
    case ReadlinkCall(bufsiz) => ReadlinkAt(st, p, bufsiz)
  }
}

=== FILE: convert.dfy ===
/**
 convert_path: the deterministic rewrites of modes 1, 2 and 3, and the mode-0
 decision whether a name is shown under the `.opus` target. The media prober
 is an oracle from URI to what it found.
 */
module Convert {
  import opened Results
  import opened Names
  import opened Translate

  /** What the prober reports: nothing, or the bitrate (bit/s) of the first audio stream, if any. */
  datatype ProbeResult = ProbeFailed | Info(firstStreamBps: Option<nat>)

  type Prober = string -> ProbeResult

  const UriScheme: string := "file://"

  /** The URI the prober is given for `name` under the virtual directory `parent`. */
  function ProbeUri(cfg: Config, parent: string, name: string): string
  {
    UriScheme + cfg.basepath + parent + "/" + name
  }

  /** The extension modes 1, 2 and 3 write; any other mode asks the prober. */
  function ModeExt(mode: int): (r: Option<string>)
    ensures r.Some? <==> 1 <= mode <= 3
    ensures r.Some? ==> IsExtension(r.value)
  {
    if mode == 1 then Some(Flac)
    else if mode == 2 then Some(Mp3)
    else if mode == 3 then Some(Ogg)
    else None
  }

  /**
   When the mode-0 decision renames: the prober answered, the name has an
   extension, and it is `.flac` or the first stream runs at the threshold in
   whole kbps or faster.
   */
  predicate Converts(name: string, probe: ProbeResult, threshold: nat)
  {
    && probe.Info?
    && LastDot(name).Some?
    && (|| Suffix(name) == Flac
        || (probe.firstStreamBps.Some? && probe.firstStreamBps.value >= 1000 * threshold))
  }

  /**
   The mode-0 decision as the rest of the model uses it: a dot-less name and a
   file without an audio stream keep their name.
   */
  function Decide(name: string, probe: ProbeResult, threshold: nat): (r: string)
    ensures Converts(name, probe, threshold) ==> r == ReplaceExt(name, Opus)
    ensures !Converts(name, probe, threshold) ==> r == name
  {
    match probe
    case ProbeFailed => name
    case Info(stream) =>
      if Suffix(name) == Flac then ReplaceExt(name, Opus)
      else
        match stream
        case None => name
        case Some(bps) =>
          if bps / 1000 >= threshold && LastDot(name).Some? then ReplaceExt(name, Opus) else name
  }

  /** A failed probe leaves every name as it is, `.flac` names included. */
  lemma ProbeFailureKeepsName(name: string, threshold: nat)
    ensures Decide(name, ProbeFailed, threshold) == name
  {
  }

  /** A `.flac` name becomes `.opus` whatever the bitrate, once the prober answers. */
  lemma FlacAlwaysConverts(name: string, stream: Option<nat>, threshold: nat)
    requires Suffix(name) == Flac
    ensures var r := Decide(name, Info(stream), threshold);
      Suffix(r) == Opus && r[..LastDot(name).value] == name[..LastDot(name).value]
  {
  }

  /** The threshold is inclusive and compared in whole kbps. */
  lemma ThresholdBoundary(name: string, threshold: nat)
    requires LastDot(name).Some? && Suffix(name) != Flac
    ensures Decide(name, Info(Some(1000 * threshold)), threshold) == ReplaceExt(name, Opus)
    ensures Decide(name, Info(Some(1000 * threshold + 999)), threshold + 1) == name
  {
  }

  /**
   At the default threshold of 256 kbps: a lossless file is converted even at
   0 kbps, and a lossy one exactly at 256 kbps is converted too.
   */
  lemma BoundaryExample()
    ensures Decide("a.flac", Info(Some(0)), DefaultThreshold) == "a.opus"
    ensures Decide("b.mp3", Info(Some(256000)), DefaultThreshold) == "b.opus"
  {
    assert "a.flac" == "a" + Flac && "a.opus" == "a" + Opus;
    assert "b.mp3" == "b" + Mp3 && "b.opus" == "b" + Opus;
    StemExtension("a", Flac);
    StemExtension("b", Mp3);
    ExtensionSwap("a", Flac, Opus);
    ExtensionSwap("b", Mp3, Opus);
  }

  /** At 256 kbps, `track.mp3` stays as it is at 128 kbps and becomes `track.opus` at 320 kbps. */
  lemma TrackExample()
    ensures Decide("track.mp3", Info(Some(128000)), DefaultThreshold) == "track.mp3"
    ensures Decide("track.mp3", Info(Some(320000)), DefaultThreshold) == "track.opus"
  {
    assert "track.mp3" == "track" + Mp3 && "track.opus" == "track" + Opus;
    StemExtension("track", Mp3);
    ExtensionSwap("track", Mp3, Opus);
  }

  /** Whatever converts at one bitrate converts at every higher one. */
  lemma DecideMonotone(name: string, slow: nat, fast: nat, threshold: nat)
    requires slow <= fast
    requires Decide(name, Info(Some(slow)), threshold) == ReplaceExt(name, Opus)
    ensures Decide(name, Info(Some(fast)), threshold) == ReplaceExt(name, Opus)
  {
    if LastDot(name).None? {
      assert ReplaceExt(name, Opus) == name;
    }
  }

  /** Deciding on an already decided name changes nothing more. */
  lemma DecideIdempotent(name: string, probe: ProbeResult, threshold: nat)
    ensures Decide(Decide(name, probe, threshold), probe, threshold) == Decide(name, probe, threshold)
  {
    if Converts(name, probe, threshold) {
      var r := ReplaceExt(name, Opus);
      ReplaceExtIdempotent(name, Opus);
      assert LastDot(r) == LastDot(name) && Suffix(r) == Opus;
      assert Suffix(r) != Flac;
      if Converts(r, probe, threshold) {
        assert Decide(r, probe, threshold) == ReplaceExt(r, Opus);
      }
    }
  }

  /** The decision touches only the extension, and grows a name by at most one character
      when the old extension has four characters or more. */
  lemma DecideGrowth(name: string, probe: ProbeResult, threshold: nat)
    requires LastDot(name).None? || |Suffix(name)| >= 4
    ensures |Decide(name, probe, threshold)| <= |name| + 1
    ensures LastDot(name).Some? ==>
      Decide(name, probe, threshold)[..LastDot(name).value] == name[..LastDot(name).value]
  {
  }

  /**
   convert_path as written, on the buffer it rewrites in place. `staleKbps`
   stands for the uninitialised `bitrate` the threshold test reads when the
   file has no audio stream.
   */
  function ConvertInPlace(mode: int, b: Buffer, cfg: Config, parent: string, probe: Prober, staleKbps: int)
    : (r: InPlace)
    requires b.HoldsText()
    ensures r.Rewritten? ==> r.buf.capacity == b.capacity && r.buf.HoldsText()
    ensures ModeExt(mode).Some? && r.Rewritten? ==> r.buf.text == ReplaceExt(b.text, ModeExt(mode).value)
    ensures r == Fault(NullDeref) ==> ModeExt(mode).None? && LastDot(b.text).None?
    ensures ModeExt(mode).None? && probe(ProbeUri(cfg, parent, b.text)).ProbeFailed? ==> r == Rewritten(b)
    ensures ModeExt(mode).None? && probe(ProbeUri(cfg, parent, b.text)) != Info(None) && r.Rewritten? ==>
      r.buf.text == Decide(b.text, probe(ProbeUri(cfg, parent, b.text)), cfg.threshold)
    ensures ModeExt(mode).None? && probe(ProbeUri(cfg, parent, b.text)).Info? && Suffix(b.text) == Flac ==>
      r == Rewritten(Buffer(ReplaceExt(b.text, Opus), b.capacity))
  {
    match ModeExt(mode)
    case Some(ext) => RewriteInPlace(b, ext)
    case None =>
      match probe(ProbeUri(cfg, parent, b.text))
      case ProbeFailed => Rewritten(b)
      case Info(stream) =>
        if Suffix(b.text) == Flac then RewriteInPlace(b, Opus)
        else
          var kbps: int := match stream case Some(bps) => bps / 1000 case None => staleKbps;
          if kbps >= cfg.threshold then
            if LastDot(b.text).None? then Fault(NullDeref) else RewriteInPlace(b, Opus)
          else Rewritten(b)
  }

  /** A `.flac` name is rewritten to `.opus` in place without ever overrunning: same length. */
  lemma FlacRewriteFits(b: Buffer, ext: string)
    requires b.HoldsText() && Suffix(b.text) == Flac && |ext| == |Flac|
    ensures RewriteInPlace(b, ext).Rewritten?
  {
  }

  /**
   As written, a name without a dot whose first stream clears the threshold
   reaches `strcpy(NULL, ".opus")`; the decision the model uses keeps the name.
   */
  lemma DotlessAboveThresholdFaults(b: Buffer, cfg: Config, parent: string, probe: Prober, staleKbps: int, bps: nat)
    requires b.HoldsText() && LastDot(b.text).None?
    requires probe(ProbeUri(cfg, parent, b.text)) == Info(Some(bps)) && bps >= 1000 * cfg.threshold
    ensures ConvertInPlace(0, b, cfg, parent, probe, staleKbps) == Fault(NullDeref)
    ensures Decide(b.text, Info(Some(bps)), cfg.threshold) == b.text
  {
    assert Suffix(b.text) == "";
  }

  /**
   As written, without an audio stream the outcome hangs on whatever the
   uninitialised bitrate holds: at or above the threshold the name is
   renamed, below it it is not. The decision the model uses keeps the name.
   */
  lemma StaleBitrateDecides(b: Buffer, cfg: Config, parent: string, probe: Prober)
    requires b.HoldsText() && LastDot(b.text).Some? && LastDot(b.text).value + |Opus| + 1 <= b.capacity
    requires Suffix(b.text) != Flac && Suffix(b.text) != Opus
    requires probe(ProbeUri(cfg, parent, b.text)) == Info(None)
    ensures ConvertInPlace(0, b, cfg, parent, probe, cfg.threshold) == Rewritten(Buffer(ReplaceExt(b.text, Opus), b.capacity))
    ensures ConvertInPlace(0, b, cfg, parent, probe, cfg.threshold - 1) == Rewritten(b)
    ensures ReplaceExt(b.text, Opus) != b.text
    ensures Decide(b.text, Info(None), cfg.threshold) == b.text
  {
    var i := LastDot(b.text).value;
    assert Suffix(ReplaceExt(b.text, Opus)) == Opus;
  }
}

=== FILE: handlers.dfy ===
/**
 The filesystem operations of transcodefs.c — getattr, open, read and
 readlink — as functions of the mount configuration, the backing store, the
 prober and whether allocation succeeds. Each returns what the handler hands
 back to FUSE: 0 or a byte count on success, minus the errno on failure.
 */
module Handlers {
  import opened Results
  import opened Names
  import opened Translate
  import opened Backing
  import opened Convert
  import opened Resolve

  /** Everything a handler observes. `canAlloc` is false when malloc fails. */
  datatype Env = Env(cfg: Config, store: Store, probe: Prober, canAlloc: bool)

  /** The translated (literal) backing path of a virtual path. */
  function Real(env: Env, path: string): string
  {
    TranslatePath(env.cfg, path).text
  }

  /** Translation puts the backing root in front: a name appended to a path stays at the end. */
  lemma RealUnder(env: Env, dir: string, name: string)
    ensures Real(env, dir + name) == Real(env, dir) + name
  {
    assert env.cfg.basepath + (dir + name) == (env.cfg.basepath + dir) + name;
  }

  /** getattr's answer: its status and, on success, the attributes it filled in. */
  datatype AttrReply = AttrReply(status: int, attr: Option<Attr>)

  function AttrReplyOf(r: Result<Hit, Errno>): AttrReply
  {
    match r
    case Ok(h) => AttrReply(0, Some(h.node.attr))
    case Err(e) => AttrReply(Neg(e), None)
  }

  /** The status a handler returns for a resolution: 0, or minus the last error. */
  function StatusOf(r: Result<Hit, Errno>): int
  {
    match r
    case Ok(_) => 0
    case Err(e) => Neg(e)
  }

  /**
   transcodefs_getattr: lstat the literal path, then its `.flac` rewrite,
   then the `.mp3` rewrite of that buffer; errno is cleared after each miss
   but the last.
   */
  function Getattr(env: Env, path: string): (r: AttrReply)
    ensures !env.canAlloc ==> r == AttrReply(Neg(ENOMEM), None)
    ensures env.canAlloc ==> r == AttrReplyOf(FirstHit(env.store, LstatCall, Candidates(Real(env, path))))
    ensures r.status == 0 <==> r.attr.Some?
    ensures env.canAlloc && Lstat(env.store, Real(env, path)).Ok? ==>
      r == AttrReply(0, Some(Lstat(env.store, Real(env, path)).value.attr))
  {
    if !env.canAlloc then AttrReply(Neg(ENOMEM), None)
    else
      var orig := Real(env, path);
      match Lstat(env.store, orig)
      case Ok(n) => AttrReply(0, Some(n.attr))
      case Err(_) =>
        var flac := ReplaceExt(orig, Flac);
        match Lstat(env.store, flac)
        case Ok(n) => AttrReply(0, Some(n.attr))
        case Err(_) =>
          ReplaceExtTwice(orig, Flac, Mp3);
          var mp3 := ReplaceExt(flac, Mp3);
          match Lstat(env.store, mp3)
          case Ok(n) => AttrReply(0, Some(n.attr))
          case Err(e) => AttrReply(Neg(e), None)
  }

  /**
   transcodefs_open: a literal open failing with anything but ENOENT is
   returned at once; a literal that opens is closed and reported; otherwise
   `.flac`, then `.mp3`, and a double miss returns the `.mp3` error.
   */
  function Open(env: Env, path: string): (status: int)
    ensures status <= 0
    ensures !env.canAlloc ==> status == Neg(ENOMEM)
    ensures env.canAlloc && Backing.Open(env.store, Real(env, path)).Err?
                         && Backing.Open(env.store, Real(env, path)).error != ENOENT ==>
      status == Neg(Backing.Open(env.store, Real(env, path)).error)
    ensures env.canAlloc && (Backing.Open(env.store, Real(env, path)).Ok?
                             || Backing.Open(env.store, Real(env, path)).error == ENOENT) ==>
      status == StatusOf(FirstHit(env.store, OpenCall, Candidates(Real(env, path))))
  {
    if !env.canAlloc then Neg(ENOMEM)
    else
      var orig := Real(env, path);
      match Backing.Open(env.store, orig)
      case Ok(_) => 0
      case Err(e) =>
        if e != ENOENT then Neg(e)
        else
          var flac := ReplaceExt(orig, Flac);
          match Backing.Open(env.store, flac)
          case Ok(_) => 0
          case Err(_) =>
            ReplaceExtTwice(orig, Flac, Mp3);
            match Backing.Open(env.store, ReplaceExt(flac, Mp3))
            case Ok(_) => 0
            case Err(e') => Neg(e')
  }

  /**
   transcodefs_read: only the literal path is opened. Its bytes are read at
   the offset; a missing literal reads as empty, since the transcoder that
   would serve converted names is not there; any other open error is
   returned. A failing pread surfaces as -1, not as minus its errno.
   */
  function Read(env: Env, path: string, size: nat, offset: nat): (r: int)
    ensures r <= size
    ensures !env.canAlloc ==> r == Neg(ENOMEM)
    ensures env.canAlloc && Backing.Open(env.store, Real(env, path)).Ok? ==>
      r == Pread(Backing.Open(env.store, Real(env, path)).value, size, offset)
    ensures env.canAlloc && Backing.Open(env.store, Real(env, path)).Err? ==>
      (r == 0 <==> Backing.Open(env.store, Real(env, path)).error == ENOENT)
    ensures env.canAlloc && r < -1 ==> Backing.Open(env.store, Real(env, path)) == Err(-r as Errno)
  {
    if !env.canAlloc then Neg(ENOMEM)
    else
      match Backing.Open(env.store, Real(env, path))
      case Ok(n) => Pread(n, size, offset)
      case Err(e) => if e != ENOENT then Neg(e) else 0
  }

  /** Every literal that exists is served as stored: getattr, open and read never look further. */
  lemma LiteralPassthrough(env: Env, path: string, size: nat, offset: nat)
    requires env.canAlloc && Backing.Open(env.store, Real(env, path)).Ok?
    ensures Getattr(env, path) == AttrReply(0, Some(Backing.Open(env.store, Real(env, path)).value.attr))
    ensures Open(env, path) == 0
    ensures Read(env, path, size, offset) == Pread(Backing.Open(env.store, Real(env, path)).value, size, offset)
  {
  }

  /** read consults the literal path only: stores that agree there read alike. */
  lemma ReadIgnoresCandidates(env: Env, other: Store, path: string, size: nat, offset: nat)
    requires Backing.Open(env.store, Real(env, path)) == Backing.Open(other, Real(env, path))
    ensures Read(env, path, size, offset) == Read(env.(store := other), path, size, offset)
  {
  }

  /** A `.flac` file requested by its `.opus` name: getattr and open find the stored file, read returns nothing. */
  lemma OpusNameOfStoredFlac(env: Env, stem: string, size: nat, offset: nat)
    requires env.canAlloc
    requires Lstat(env.store, Real(env, stem + Opus)) == Err(ENOENT)
    requires Backing.Open(env.store, Real(env, stem + Flac)).Ok?
    ensures Getattr(env, stem + Flac) == AttrReply(0, Some(Lstat(env.store, Real(env, stem + Flac)).value.attr))
    ensures Getattr(env, stem + Opus) == AttrReply(0, Some(Lstat(env.store, Real(env, stem + Flac)).value.attr))
    ensures Open(env, stem + Opus) == 0
    ensures Read(env, stem + Opus, size, offset) == 0
  {
    var p := Real(env, stem);
    RealUnder(env, stem, Opus);
    RealUnder(env, stem, Flac);
    ExtensionSwap(p, Opus, Flac);
    var c := Candidates(Real(env, stem + Opus));
    assert c[1] == Real(env, stem + Flac);
  }

  /** The width of size_t: `size - 2` wraps modulo this when size < 2. */
  const SizeModulus: int := 0x1_0000_0000_0000_0000

  /** The width of the `int bufsiz` parameter of the Linux readlink system call. */
  const IntModulus: int := 0x1_0000_0000

  /**
   The buffer size readlink(2) works with: `size - 2` as size_t arithmetic,
   narrowed to the kernel's signed 32-bit `bufsiz`.
   */
  function ReadlinkLimit(size: nat): (b: int)
    ensures -IntModulus / 2 <= b < IntModulus / 2
    ensures 2 <= size < IntModulus / 2 + 2 ==> b == size - 2
    ensures size < 2 ==> b < 0
    ensures 0 < b ==> b + 2 <= size
  {
    var wide := (size - 2) % SizeModulus;
    var low := wide % IntModulus;
    if low < IntModulus / 2 then low else low - IntModulus
  }

  /** What readlink left in the caller's buffer: the link text read, and what it shows after the decision. */
  datatype LinkText = LinkText(raw: string, shown: string)

  datatype LinkReply = LinkReply(status: int, link: Option<LinkText>)

  /**
   The link text cut to the limit and passed through the mode-0 decision; the
   prober is asked about `path` + "/" + text under the backing root.
   */
  function LinkOf(env: Env, path: string, size: nat, n: Node): (t: LinkText)
    requires n.kind.Symlink? && 0 < ReadlinkLimit(size)
    ensures |t.raw| <= ReadlinkLimit(size) && |t.raw| <= |n.kind.target|
    ensures t.raw == n.kind.target[..|t.raw|]
    ensures |t.raw| == if |n.kind.target| <= ReadlinkLimit(size) then |n.kind.target| else ReadlinkLimit(size)
    ensures t.shown == Decide(t.raw, env.probe(ProbeUri(env.cfg, path, t.raw)), env.cfg.threshold)
  {
    var raw := Truncate(n.kind.target, ReadlinkLimit(size));
    LinkText(raw, Decide(raw, env.probe(ProbeUri(env.cfg, path, raw)), env.cfg.threshold))
  }

  /**
   transcodefs_readlink as written: the `.flac` rewrite, then the `.mp3`
   rewrite of that buffer; the literal name is never read. errno is not
   cleared after the first miss, so a link found on the second try is
   returned together with the first try's error. A buffer size readlink(2)
   refuses makes both tries fail with EINVAL.
   */
  function Readlink(env: Env, path: string, size: nat): (r: LinkReply)
    ensures !env.canAlloc ==> r == LinkReply(Neg(ENOMEM), None)
    ensures env.canAlloc ==>
      var call := ReadlinkCall(ReadlinkLimit(size));
      var hit := FirstHit(env.store, call, LinkCandidates(Real(env, path)));
      && (r.link.Some? <==> hit.Ok?)
      && (hit.Ok? ==> 0 < ReadlinkLimit(size) && r.link == Some(LinkOf(env, path, size, hit.value.node)))
      && (hit.Ok? && hit.value.index == 0 ==> r.status == 0)
      && (hit.Ok? && hit.value.index == 1 ==>
            r.status == Neg(Attempt(env.store, call, LinkCandidates(Real(env, path))[0]).error))
      && (hit.Err? ==> r.status == Neg(hit.error))
    ensures env.canAlloc && ReadlinkLimit(size) <= 0 ==> r == LinkReply(Neg(EINVAL), None)
  {
    if !env.canAlloc then LinkReply(Neg(ENOMEM), None)
    else
      var orig := Real(env, path);
      var flac := ReplaceExt(orig, Flac);
      var limit := ReadlinkLimit(size);
      match ReadlinkAt(env.store, flac, limit)
      case Ok(n) => LinkReply(0, Some(LinkOf(env, path, size, n)))
      case Err(e1) =>
        ReplaceExtTwice(orig, Flac, Mp3);
        match ReadlinkAt(env.store, ReplaceExt(flac, Mp3), limit)
        case Ok(n) => LinkReply(Neg(e1), Some(LinkOf(env, path, size, n)))
        case Err(e2) => LinkReply(Neg(e2), None)
  }

  /** readlink as evidently intended: a link that was read is reported with status 0. */
  function ReadlinkFixed(env: Env, path: string, size: nat): (r: LinkReply)
    ensures r.link == Readlink(env, path, size).link
    ensures env.canAlloc ==>
      (r.status == 0 <==> FirstHit(env.store, ReadlinkCall(ReadlinkLimit(size)), LinkCandidates(Real(env, path))).Ok?)
    ensures r.status <= 0 && (r.status == 0 <==> r.link.Some?)
  {
    var r := Readlink(env, path, size);
    if r.link.Some? then LinkReply(0, r.link) else r
  }

  /**
   As written, a symbolic link stored under the `.mp3` name whose `.flac`
   sibling is missing is read, yet readlink reports -ENOENT.
   */
  lemma ReadlinkMp3ReportsError(env: Env, stem: string, size: nat)
    requires env.canAlloc
    requires ReadlinkAt(env.store, Real(env, stem + Flac), ReadlinkLimit(size)) == Err(ENOENT)
    requires ReadlinkAt(env.store, Real(env, stem + Mp3), ReadlinkLimit(size)).Ok?
    ensures Readlink(env, stem + Opus, size).link.Some?
    ensures Readlink(env, stem + Opus, size).status == Neg(ENOENT)
    ensures ReadlinkFixed(env, stem + Opus, size).status == 0
  {
    var p := Real(env, stem);
    RealUnder(env, stem, Opus);
    RealUnder(env, stem, Flac);
    RealUnder(env, stem, Mp3);
    ExtensionSwap(p, Opus, Flac);
    ExtensionSwap(p, Opus, Mp3);
    var c := LinkCandidates(Real(env, stem + Opus));
    assert c[0] == Real(env, stem + Flac);
    assert c[1] == Real(env, stem + Mp3);
  }

  /**
   With room for `size` bytes, the text read takes at most size - 2 of them,
   leaving the terminator and one character of growth; the decision stays
   within that when the text's extension has four characters or more.
   */
  lemma ReadlinkTextFits(env: Env, path: string, size: nat)
    requires Readlink(env, path, size).link.Some?
    ensures |Readlink(env, path, size).link.value.raw| + 2 <= size
    ensures var t := Readlink(env, path, size).link.value;
      LastDot(t.raw).None? || |Suffix(t.raw)| >= 4 ==> |t.shown| + 1 <= size
  {
    var hit := FirstHit(env.store, ReadlinkCall(ReadlinkLimit(size)), LinkCandidates(Real(env, path)));
    assert Readlink(env, path, size).link.value == LinkOf(env, path, size, hit.value.node);
    LinkTextFits(env, path, size, hit.value.node);
  }

  /** The text of one link, cut to size - 2 bytes and then decided on. */
  lemma LinkTextFits(env: Env, path: string, size: nat, n: Node)
    requires n.kind.Symlink? && 0 < ReadlinkLimit(size)
    ensures |LinkOf(env, path, size, n).raw| + 2 <= size
    ensures var t := LinkOf(env, path, size, n);
      LastDot(t.raw).None? || |Suffix(t.raw)| >= 4 ==> |t.shown| + 1 <= size
  {
    var t := LinkOf(env, path, size, n);
    if LastDot(t.raw).None? || |Suffix(t.raw)| >= 4 {
      DecideGrowth(t.raw, env.probe(ProbeUri(env.cfg, path, t.raw)), env.cfg.threshold);
    }
  }

  /**
   With room for two bytes or fewer, `size - 2` leaves readlink(2) no positive
   buffer size, so both tries fail and the handler returns -EINVAL.
   */
  lemma ReadlinkNoRoom(env: Env, path: string, size: nat)
    requires env.canAlloc && size <= 2
    ensures Readlink(env, path, size) == LinkReply(Neg(EINVAL), None)
    ensures ReadlinkFixed(env, path, size) == LinkReply(Neg(EINVAL), None)
  {
  }

  /** The chain as the listing needs it: the literal, `.flac`, `.mp3`, and also `.ogg`. */
  function AllCandidates(orig: string): (c: seq<string>)
    ensures |c| == 4 && c[..3] == Candidates(orig)
  {
    Candidates(orig) + [ReplaceExt(orig, Ogg)]
  }

  /**
   getattr with the `.ogg` candidate the handler leaves out tried last: it
   agrees with getattr wherever getattr finds something.
   */
  function GetattrFixed(env: Env, path: string): (r: AttrReply)
    ensures !env.canAlloc ==> r == AttrReply(Neg(ENOMEM), None)
    ensures env.canAlloc ==> r == AttrReplyOf(FirstHit(env.store, LstatCall, AllCandidates(Real(env, path))))
    ensures Getattr(env, path).status == 0 ==> r == Getattr(env, path)
  {
    var r := Getattr(env, path);
    if !env.canAlloc || r.status == 0 then r
    else
      var orig := Real(env, path);
      FirstHitAppend(env.store, LstatCall, Candidates(orig), ReplaceExt(orig, Ogg));
      match Lstat(env.store, ReplaceExt(orig, Ogg))
      case Ok(n) => AttrReply(0, Some(n.attr))
      case Err(e) => AttrReply(Neg(e), None)
  }
}

=== FILE: names.dfy ===
/** Optional values and error-carrying results shared by the whole model. */
module Results {

  datatype Option<+T> = None | Some(value: T)

  datatype Result<+T, +E> = Ok(value: T) | Err(error: E)
}

/**
 File-name extensions as transcodefs sees them: the extension of a name is
 everything from its LAST '.' on (what `strrchr(path, '.')` finds), wherever
 that dot sits — in the file name, a directory component or the backing root.
 */
module Names {
  import opened Results

  /** Index of the last '.' among the first `n` characters of `s`, or None when they hold none. */
  function LastDotBefore(s: string, n: nat): (r: Option<nat>)
    requires n <= |s|
    ensures r.Some? ==> r.value < n && s[r.value] == '.'
    ensures r.Some? ==> forall j :: r.value < j < n ==> s[j] != '.'
    ensures r.None? <==> forall j :: 0 <= j < n ==> s[j] != '.'
    decreases n
  {
    if n == 0 then None
    else if s[n - 1] == '.' then Some(n - 1)
    else LastDotBefore(s, n - 1)
  }

  /** Index of the last '.' in `s`, or None when `s` contains no '.'. */
  function LastDot(s: string): (r: Option<nat>)
    ensures r.Some? ==> r.value < |s| && s[r.value] == '.'
    ensures r.Some? ==> forall j :: r.value < j < |s| ==> s[j] != '.'
    ensures r.None? <==> forall j :: 0 <= j < |s| ==> s[j] != '.'
  {
    LastDotBefore(s, |s|)
  }

  /** A dot at `i` with no dot after it is the last dot. */
  lemma LastDotUnique(s: string, i: nat)
    requires i < |s| && s[i] == '.'
    requires forall j :: i < j < |s| ==> s[j] != '.'
    ensures LastDot(s) == Some(i)
  {
  }

  /** The extension of `s` (from its last dot on), or "" when it has none. */
  function Suffix(s: string): (r: string)
    ensures LastDot(s).None? ==> r == ""
    ensures LastDot(s).Some? ==> |r| == |s| - LastDot(s).value && r[0] == '.'
    ensures LastDot(s).Some? ==> r == s[LastDot(s).value..]
  {
    match LastDot(s)
    case None => ""
    case Some(i) => s[i..]
  }

  /** An extension to write: a leading '.' and no other dot. */
  predicate IsExtension(e: string)
  {
    |e| >= 1 && e[0] == '.' && forall j :: 1 <= j < |e| ==> e[j] != '.'
  }

  /** The lossless candidate (mode 1). */
  const Flac: string := ".flac"
  /** The first lossy candidate (mode 2). */
  const Mp3: string := ".mp3"
  /** The second lossy candidate (mode 3), which no handler asks for. */
  const Ogg: string := ".ogg"
  /** The target the decision renames to. */
  const Opus: string := ".opus"

  /**
   Replace everything from the last dot of `s` with `ext`; a name without a
   dot is left as it is (the `if (ptr)` guard of the rewrite).
   */
  function ReplaceExt(s: string, ext: string): (r: string)
    ensures LastDot(s).None? ==> r == s
    ensures LastDot(s).Some? ==>
      var i := LastDot(s).value;
      |r| == i + |ext| && r[..i] == s[..i] && r[i..] == ext
    ensures IsExtension(ext) && LastDot(s).Some? ==> LastDot(r) == LastDot(s) && Suffix(r) == ext
  {
    match LastDot(s)
    case None => s
    case Some(i) =>
      var r := s[..i] + ext;
      if IsExtension(ext) then
        assert r[i] == '.';
        assert forall j :: i < j < |r| ==> r[j] == ext[j - i];
        LastDotUnique(r, i);
        r
      else r
  }

  /** Rewriting twice is rewriting once with the second extension. */
  lemma ReplaceExtTwice(s: string, e1: string, e2: string)
    requires IsExtension(e1)
    ensures ReplaceExt(ReplaceExt(s, e1), e2) == ReplaceExt(s, e2)
  {
    match LastDot(s)
    case None =>
    case Some(i) =>
      var t := ReplaceExt(s, e1);
      assert LastDot(t) == Some(i);
      assert t[..i] == s[..i];
  }

  /** Rewriting with an extension is idempotent. */
  lemma ReplaceExtIdempotent(s: string, e: string)
    requires IsExtension(e)
    ensures ReplaceExt(ReplaceExt(s, e), e) == ReplaceExt(s, e)
  {
    ReplaceExtTwice(s, e, e);
  }

  /** A name's own extension written back over it changes nothing. */
  lemma ReplaceExtOwnSuffix(s: string)
    requires LastDot(s).Some?
    ensures ReplaceExt(s, Suffix(s)) == s
  {
    var i := LastDot(s).value;
    assert s[..i] + s[i..] == s;
  }

  /** A dot in the name outranks every dot in a prefix put before it. */
  lemma LastDotUnderPrefix(p: string, s: string)
    requires LastDot(s).Some?
    ensures LastDot(p + s) == Some(|p| + LastDot(s).value)
  {
    var i := LastDot(s).value;
    var ps := p + s;
    assert ps[|p| + i] == s[i];
    assert forall j :: |p| + i < j < |ps| ==> ps[j] == s[j - |p|];
    LastDotUnique(ps, |p| + i);
  }

  /** The rewrite of a name whose last dot is at `i`. */
  lemma ReplaceExtAt(s: string, i: nat, e: string)
    requires LastDot(s) == Some(i)
    ensures ReplaceExt(s, e) == s[..i] + e
  {
  }

  /** Cutting a prefixed name inside the name keeps the prefix. */
  lemma PrefixedTake(p: string, s: string, i: nat, e: string)
    requires i <= |s|
    ensures (p + s)[..|p| + i] + e == p + (s[..i] + e)
  {
    assert (p + s)[..|p| + i] == p + s[..i];
  }

  /** Rewriting a directory-prefixed name leaves the prefix alone. */
  lemma ReplaceExtUnderPrefix(p: string, s: string, e: string)
    requires LastDot(s).Some?
    ensures ReplaceExt(p + s, e) == p + ReplaceExt(s, e)
  {
    var i := LastDot(s).value;
    LastDotUnderPrefix(p, s);
    ReplaceExtAt(p + s, |p| + i, e);
    ReplaceExtAt(s, i, e);
    PrefixedTake(p, s, i, e);
  }

  /** A stem followed by an extension has that extension, whatever dots the stem holds. */
  lemma StemExtension(stem: string, e: string)
    requires IsExtension(e)
    ensures LastDot(stem + e) == Some(|stem|) && Suffix(stem + e) == e
  {
    LastDotUnique(e, 0);
    LastDotUnderPrefix(stem, e);
    assert (stem + e)[|stem|..] == e;
  }

  /** A stem with one extension, rewritten to another, is the stem with the other. */
  lemma ExtensionSwap(stem: string, e1: string, e2: string)
    requires IsExtension(e1)
    ensures ReplaceExt(stem + e1, e2) == stem + e2
  {
    LastDotUnique(e1, 0);
    ReplaceExtAt(e1, 0, e2);
    assert e1[..0] + e2 == e2;
    ReplaceExtUnderPrefix(stem, e1, e2);
  }

  /** A renamed entry's shown name, rewritten back to the entry's own extension, is the stored path. */
  lemma RenamedFindsStored(p: string, name: string)
    requires LastDot(name).Some?
    ensures ReplaceExt(p + ReplaceExt(name, Opus), Suffix(name)) == p + name
  {
    var shown := ReplaceExt(name, Opus);
    var ext := Suffix(name);
    calc {
      ReplaceExt(p + shown, ext);
    == { ReplaceExtUnderPrefix(p, shown, ext); }
      p + ReplaceExt(shown, ext);
    == { ReplaceExtTwice(name, Opus, ext); }
      p + ReplaceExt(name, ext);
    == { ReplaceExtOwnSuffix(name); }
      p + name;
    }
  }
}

=== FILE: readdir.dfy ===
/**
 transcodefs_readdir: the backing directory's entries in on-disk order, each
 regular file and symbolic link shown under the name the mode-0 decision
 gives it, until the caller's buffer is full or an entry cannot be stat'ed.
 */
module Readdir {
  import opened Results
  import opened Names
  import opened Translate
  import opened Backing
  import opened Convert
  import opened Resolve
  import opened Handlers

  /** The longest entry name a directory holds (NAME_MAX). */
  const NameMax: nat := 255

  /** snprintf("%s/%s") of the directory and an entry name into |dir| + NAME_MAX + 2 bytes. */
  function EntryPath(dir: string, name: string): (p: string)
    ensures |name| <= NameMax ==> p == dir + "/" + name
    ensures |p| <= |dir| + NameMax + 1
  {
    var full := dir + "/" + name;
    if |full| <= |dir| + NameMax + 1 then full else full[..|dir| + NameMax + 1]
  }

  /**
   The name an entry of the virtual directory `dir` is shown under: regular
   files and links go through the decision, every other kind is verbatim.
   */
  function DisplayName(env: Env, dir: string, name: string, n: Node): (shown: string)
    ensures !(n.kind.Regular? || n.kind.Symlink?) ==> shown == name
    ensures shown == name || shown == ReplaceExt(name, Opus)
    ensures (n.kind.Regular? || n.kind.Symlink?) && env.probe(ProbeUri(env.cfg, dir, name)).ProbeFailed? ==> shown == name
  {
    if n.kind.Regular? || n.kind.Symlink? then
      Decide(name, env.probe(ProbeUri(env.cfg, dir, name)), env.cfg.threshold)
    else name
  }

  /** One listed entry: the name shown and the attributes lstat gave. */
  datatype Shown = Shown(name: string, attr: Attr)

  /** readdir's answer: its status and the entries the filler accepted, in order. */
  datatype Listing = Listing(status: int, shown: seq<Shown>)

  /** What the loop makes of one entry: the error lstat gave, or the entry as shown. */
  function EntryOutcome(env: Env, dir: string, orig: string, name: string): (r: Result<Shown, Errno>)
    ensures r.Err? <==> Lstat(env.store, EntryPath(orig, name)).Err?
  {
    match Lstat(env.store, EntryPath(orig, name))
    case Ok(n) => Ok(Shown(DisplayName(env, dir, name, n), n.attr))
    case Err(e) => Err(e)
  }

  /** The outcome of each entry name, as one loop turn finds it. */
  type Outcomes = string -> Result<Shown, Errno>

  /** The outcomes for the entries of the backing directory `orig` of the virtual directory `dir`. */
  function Look(env: Env, dir: string, orig: string): Outcomes
  {
    name => EntryOutcome(env, dir, orig, name)
  }

  /**
   The loop over the entries `names`, with a filler that accepts `room` more
   entries: an entry whose lstat fails aborts with its error, a full filler
   stops the listing with status 0.
   */
  function ListEntries(look: Outcomes, names: seq<string>, room: nat): (r: Listing)
    ensures |r.shown| <= |names| && |r.shown| <= room
    ensures r.status <= 0
    decreases |names|
  {
    if |names| == 0 then Listing(0, [])
    else
      match look(names[0])
      case Err(e) => Listing(Neg(e), [])
      case Ok(item) =>
        if room == 0 then Listing(0, [])
        else
          var rest := ListEntries(look, names[1..], room - 1);
          Listing(rest.status, [item] + rest.shown)
  }

  /**
   What the listing holds: the first entries in on-disk order, each as its
   outcome shows it; a negative status is the error of the entry right after
   them; status 0 means every entry was shown, or the filler filled up before
   an entry that lstat finds.
   */
  lemma {:induction false} ListEntriesMeaning(look: Outcomes, names: seq<string>, room: nat)
    ensures var r := ListEntries(look, names, room);
      && (forall i :: 0 <= i < |r.shown| ==> look(names[i]) == Ok(r.shown[i]))
      && (r.status < 0 ==>
            && |r.shown| < |names|
            && look(names[|r.shown|]).Err?
            && r.status == Neg(look(names[|r.shown|]).error))
      && (r.status == 0 ==>
            || |r.shown| == |names|
            || (|r.shown| == room && look(names[room]).Ok?))
    decreases |names|
  {
    if |names| > 0 && look(names[0]).Ok? && room > 0 {
      var tail := names[1..];
      ListEntriesMeaning(look, tail, room - 1);
      var r := ListEntries(look, names, room);
      var rest := ListEntries(look, tail, room - 1);
      assert r.shown == [look(names[0]).value] + rest.shown;
      forall i | 1 <= i < |r.shown|
        ensures look(names[i]) == Ok(r.shown[i])
      {
        assert names[i] == tail[i - 1] && r.shown[i] == rest.shown[i - 1];
      }
      if |r.shown| < |names| {
        assert names[|r.shown|] == tail[|rest.shown|];
      }
    }
  }

  /** transcodefs_readdir for the virtual directory `path` and a filler with room for `room` entries. */
  function Readdir(env: Env, path: string, room: nat): (r: Listing)
    ensures !env.canAlloc ==> r == Listing(Neg(ENOMEM), [])
    ensures env.canAlloc && OpenDir(env.store, Real(env, path)).Err? ==>
      r == Listing(Neg(OpenDir(env.store, Real(env, path)).error), [])
    ensures env.canAlloc && OpenDir(env.store, Real(env, path)).Ok? ==>
      r == ListEntries(Look(env, path, Real(env, path)), OpenDir(env.store, Real(env, path)).value, room)
  {
    if !env.canAlloc then Listing(Neg(ENOMEM), [])
    else
      var orig := Real(env, path);
      match OpenDir(env.store, orig)
      case Err(e) => Listing(Neg(e), [])
      case Ok(names) => ListEntries(Look(env, path, orig), names, room)
  }

  /**
   The listing of a directory that opens: entry `i` is shown under the name
   the decision gives it, with the attributes lstat found; a negative status
   is the lstat error of the first entry not shown.
   */
  lemma ReaddirShows(env: Env, path: string, room: nat)
    requires env.canAlloc && OpenDir(env.store, Real(env, path)).Ok?
    ensures var names := OpenDir(env.store, Real(env, path)).value;
      var r := Readdir(env, path, room);
      && (forall i :: 0 <= i < |r.shown| ==>
            var n := Lstat(env.store, EntryPath(Real(env, path), names[i]));
            n.Ok? && r.shown[i] == Shown(DisplayName(env, path, names[i], n.value), n.value.attr))
      && (r.status < 0 ==>
            && |r.shown| < |names|
            && var n := Lstat(env.store, EntryPath(Real(env, path), names[|r.shown|]));
               n.Err? && r.status == Neg(n.error))
  {
    var orig := Real(env, path);
    var names := OpenDir(env.store, orig).value;
    var look := Look(env, path, orig);
    ListEntriesMeaning(look, names, room);
    var r := Readdir(env, path, room);
    forall i | 0 <= i < |r.shown|
      ensures var n := Lstat(env.store, EntryPath(orig, names[i]));
        n.Ok? && r.shown[i] == Shown(DisplayName(env, path, names[i], n.value), n.value.attr)
    {
      assert look(names[i]) == EntryOutcome(env, path, orig, names[i]);
    }
    if r.status < 0 {
      assert look(names[|r.shown|]) == EntryOutcome(env, path, orig, names[|r.shown|]);
    }
  }

  /** The listing with `done` already shown before the rest. */
  function After(done: seq<Shown>, rest: Listing): Listing
  {
    Listing(rest.status, done + rest.shown)
  }

  /**
   One turn of the loop at entry `k`: that entry decides whether the listing
   of the remaining entries aborts, stops or shows it and goes on.
   */
  lemma ListEntriesAt(look: Outcomes, names: seq<string>, k: nat, room: nat)
    requires k < |names|
    ensures look(names[k]).Err? ==>
      ListEntries(look, names[k..], room) == Listing(Neg(look(names[k]).error), [])
    ensures look(names[k]).Ok? && room == 0 ==>
      ListEntries(look, names[k..], room) == Listing(0, [])
    ensures look(names[k]).Ok? && room > 0 ==>
      ListEntries(look, names[k..], room) == After([look(names[k]).value], ListEntries(look, names[k + 1..], room - 1))
  {
    assert names[k..][0] == names[k];
    assert names[k..][1..] == names[k + 1..];
  }

  /** Showing one more entry before the rest is showing it after those already shown. */
  lemma AfterOneMore(done: seq<Shown>, item: Shown, rest: Listing)
    ensures After(done, After([item], rest)) == After(done + [item], rest)
  {
    assert done + ([item] + rest.shown) == (done + [item]) + rest.shown;
  }

  /** The handler's while loop over readdir(3), computing the same listing. */
  method ListLoop(look: Outcomes, names: seq<string>, room: nat) returns (r: Listing)
    ensures r == ListEntries(look, names, room)
  {
    ghost var whole := ListEntries(look, names, room);
    assert names[0..] == names;
    var shown: seq<Shown> := [];
    var k := 0;
    while k < |names|
      invariant k <= |names| && k <= room && |shown| == k
      invariant After(shown, ListEntries(look, names[k..], room - k)) == whole
    {
      var entry := look(names[k]);
      ListEntriesAt(look, names, k, room - k);
      if entry.Err? {
        return Listing(Neg(entry.error), shown);
      }
      if k == room {
        return Listing(0, shown);
      }
      AfterOneMore(shown, entry.value, ListEntries(look, names[k + 1..], room - k - 1));
      shown := shown + [entry.value];
      k := k + 1;
    }
    assert names[k..] == [];
    return Listing(0, shown);
  }

  /** transcodefs_readdir with its loop: the same answer as Readdir. */
  method ReaddirLoop(env: Env, path: string, room: nat) returns (r: Listing)
    ensures r == Readdir(env, path, room)
  {
    if !env.canAlloc {
      return Listing(Neg(ENOMEM), []);
    }
    var orig := Real(env, path);
    var listed := OpenDir(env.store, orig);
    if listed.Err? {
      return Listing(Neg(listed.error), []);
    }
    r := ListLoop(Look(env, path, orig), listed.value, room);
  }

  /** The path getattr looks up for an entry of `dir` is the path readdir stat'ed for it. */
  lemma ChildPath(env: Env, dir: string, name: string)
    ensures |name| <= NameMax ==> Real(env, dir + "/" + name) == EntryPath(Real(env, dir), name)
    ensures Real(env, dir + "/" + name) == (env.cfg.basepath + dir + "/") + name
  {
    var b := env.cfg.basepath;
    calc {
      Real(env, dir + "/" + name);
      b + (dir + "/" + name);
      (b + dir + "/") + name;
    }
    if |name| <= NameMax {
      calc {
        EntryPath(Real(env, dir), name);
        Real(env, dir) + "/" + name;
        (b + dir) + "/" + name;
        (b + dir + "/") + name;
      }
    }
  }

  /** The four paths getattr with the `.ogg` candidate tries, in order. */
  lemma AllCandidatesAre(q: string)
    ensures AllCandidates(q) == [q, ReplaceExt(q, Flac), ReplaceExt(q, Mp3), ReplaceExt(q, Ogg)]
  {
  }

  /** getattr with the `.ogg` candidate succeeds as soon as one of its candidates exists. */
  lemma FoundWhenCandidateExists(env: Env, path: string, j: nat)
    requires env.canAlloc && j < 4
    requires Lstat(env.store, AllCandidates(Real(env, path))[j]).Ok?
    ensures GetattrFixed(env, path).status == 0
  {
    var r := FirstHit(env.store, LstatCall, AllCandidates(Real(env, path)));
    assert Attempt(env.store, LstatCall, AllCandidates(Real(env, path))[j]).Ok?;
    assert r.Ok?;
  }

  /** A stored `.flac`, `.mp3` or `.ogg` entry is found by getattr with the `.ogg` candidate under its `.opus` name. */
  lemma RenamedEntryResolves(env: Env, dir: string, name: string)
    requires env.canAlloc && |name| <= NameMax
    requires LastDot(name).Some? && Suffix(name) in {Flac, Mp3, Ogg}
    requires Lstat(env.store, EntryPath(Real(env, dir), name)).Ok?
    ensures GetattrFixed(env, dir + "/" + ReplaceExt(name, Opus)).status == 0
  {
    var shown := ReplaceExt(name, Opus);
    var p := env.cfg.basepath + dir + "/";
    ChildPath(env, dir, name);
    ChildPath(env, dir, shown);
    var q := Real(env, dir + "/" + shown);
    AllCandidatesAre(q);
    RenamedFindsStored(p, name);
    var j := if Suffix(name) == Flac then 1 else if Suffix(name) == Mp3 then 2 else 3;
    assert AllCandidates(q)[j] == ReplaceExt(q, Suffix(name)) == p + name;
    FoundWhenCandidateExists(env, dir + "/" + shown, j);
  }

  /**
   A name the listing shows for a `.flac`, `.mp3` or `.ogg` file, or one it
   shows unchanged, is found again by getattr once `.ogg` is among the
   candidates.
   */
  lemma ListedNameResolves(env: Env, dir: string, name: string, n: Node)
    requires env.canAlloc && |name| <= NameMax
    requires Lstat(env.store, EntryPath(Real(env, dir), name)) == Ok(n)
    requires DisplayName(env, dir, name, n) == name || Suffix(name) in {Flac, Mp3, Ogg}
    ensures GetattrFixed(env, dir + "/" + DisplayName(env, dir, name, n)).status == 0
  {
    var shown := DisplayName(env, dir, name, n);
    if shown == name {
      ChildPath(env, dir, name);
      AllCandidatesAre(Real(env, dir + "/" + name));
      FoundWhenCandidateExists(env, dir + "/" + name, 0);
    } else {
      RenamedEntryResolves(env, dir, name);
    }
  }

  /**
   readdir of the mount root, which arrives as "/", stats `base//name`; getattr
   of the root's child "/" + name translates to `base/name`, another string.
   */
  lemma RootEntryPath(env: Env, name: string)
    requires |name| <= NameMax
    ensures EntryPath(Real(env, "/"), name) == Real(env, "//" + name)
    ensures EntryPath(Real(env, "/"), name) != Real(env, "/" + name)
  {
    ChildPath(env, "/", name);
    assert "/" + "/" + name == "//" + name;
    assert |Real(env, "//" + name)| == |Real(env, "/" + name)| + 1;
  }

  /**
   An entry shown under `shown`, stored under `name` beside it in the backing
   directory `p`, is found by getattr with the `.ogg` candidate.
   */
  lemma ShownEntryFound(env: Env, path: string, p: string, name: string, shown: string)
    requires env.canAlloc && Real(env, path) == p + shown
    requires Lstat(env.store, p + name).Ok?
    requires shown == name || (shown == ReplaceExt(name, Opus) && LastDot(name).Some? && Suffix(name) in {Flac, Mp3, Ogg})
    ensures GetattrFixed(env, path).status == 0
  {
    var q := Real(env, path);
    AllCandidatesAre(q);
    if shown == name {
      FoundWhenCandidateExists(env, path, 0);
    } else {
      RenamedFindsStored(p, name);
      var j := if Suffix(name) == Flac then 1 else if Suffix(name) == Mp3 then 2 else 3;
      assert AllCandidates(q)[j] == ReplaceExt(q, Suffix(name)) == p + name;
      FoundWhenCandidateExists(env, path, j);
    }
  }

  /**
   The mount root's listing, on a backing filesystem that reads `base//name`
   as `base/name`: a name shown unchanged, or shown for a `.flac`, `.mp3` or
   `.ogg` file, is found again by getattr of "/" + that name once `.ogg` is
   among the candidates.
   */
  lemma RootListedNameResolves(env: Env, name: string, n: Node)
    requires env.canAlloc && |name| <= NameMax
    requires Lstat(env.store, EntryPath(Real(env, "/"), name)) == Ok(n)
    requires Lstat(env.store, Real(env, "/" + name)) == Lstat(env.store, EntryPath(Real(env, "/"), name))
    requires DisplayName(env, "/", name, n) == name || Suffix(name) in {Flac, Mp3, Ogg}
    ensures GetattrFixed(env, "/" + DisplayName(env, "/", name, n)).status == 0
  {
    var shown := DisplayName(env, "/", name, n);
    var p := Real(env, "/");
    RealUnder(env, "/", name);
    RealUnder(env, "/", shown);
    assert shown != name ==> LastDot(name).Some? && shown == ReplaceExt(name, Opus);
    ShownEntryFound(env, "/" + shown, p, name, shown);
  }

  /**
   A regular `.ogg` entry whose first stream clears the threshold is listed
   under its `.opus` name...
   */
  lemma OggListedAsOpus(env: Env, dir: string, stem: string, n: Node, bps: nat)
    requires n.kind.Regular?
    requires env.probe(ProbeUri(env.cfg, dir, stem + Ogg)) == Info(Some(bps)) && bps >= 1000 * env.cfg.threshold
    ensures DisplayName(env, dir, stem + Ogg, n) == stem + Opus
  {
    StemExtension(stem, Ogg);
    ExtensionSwap(stem, Ogg, Opus);
  }

  /**
   ...but when nothing is stored under the `.opus`, `.flac` or `.mp3` name,
   getattr as written, which never tries `.ogg`, reports that name missing...
   */
  lemma OggOpusNotFound(env: Env, stem: string)
    requires env.canAlloc
    requires Lstat(env.store, Real(env, stem) + Opus) == Err(ENOENT)
    requires Lstat(env.store, Real(env, stem) + Flac) == Err(ENOENT)
    requires Lstat(env.store, Real(env, stem) + Mp3) == Err(ENOENT)
    ensures Getattr(env, stem + Opus) == AttrReply(Neg(ENOENT), None)
  {
    var base := Real(env, stem);
    var orig := Real(env, stem + Opus);
    RealUnder(env, stem, Opus);
    ExtensionSwap(base, Opus, Flac);
    ExtensionSwap(base, Opus, Mp3);
    var c := Candidates(orig);
    assert c == [base + Opus, base + Flac, base + Mp3];
    assert Attempt(env.store, LstatCall, c[0]).Err?;
    assert Attempt(env.store, LstatCall, c[1]).Err?;
    assert Attempt(env.store, LstatCall, c[2]) == Err(ENOENT);
    assert FirstHit(env.store, LstatCall, c) == Err(ENOENT);
  }

  /** ...while getattr with the `.ogg` candidate finds the stored `.ogg` file. */
  lemma OggOpusFoundWhenFixed(env: Env, stem: string, n: Node)
    requires env.canAlloc
    requires Lstat(env.store, Real(env, stem) + Opus) == Err(ENOENT)
    requires Lstat(env.store, Real(env, stem) + Flac) == Err(ENOENT)
    requires Lstat(env.store, Real(env, stem) + Mp3) == Err(ENOENT)
    requires Lstat(env.store, Real(env, stem) + Ogg) == Ok(n)
    ensures GetattrFixed(env, stem + Opus) == AttrReply(0, Some(n.attr))
  {
    OggOpusNotFound(env, stem);
    RealUnder(env, stem, Opus);
    ExtensionSwap(Real(env, stem), Opus, Ogg);
  }
}

=== FILE: resolve.dfy ===
/**
 The candidate chains the handlers walk: the literal translated path, then
 its `.flac` rewrite, then its `.mp3` rewrite; the first call that succeeds
 wins.
 */
module Resolve {
  import opened Results
  import opened Names
  import opened Backing

  /** The candidate that answered, by position, and what it is. */
  datatype Hit = Hit(index: nat, node: Node)

  /**
   The first candidate on which `call` succeeds or, when none does, the
   error of the last one tried.
   */
  function FirstHit(st: Store, call: Call, cands: seq<string>): (r: Result<Hit, Errno>)
    requires |cands| > 0
    ensures r.Ok? ==> r.value.index < |cands| && Attempt(st, call, cands[r.value.index]) == Ok(r.value.node)
    ensures r.Ok? ==> forall j :: 0 <= j < r.value.index ==> Attempt(st, call, cands[j]).Err?
    ensures r.Err? <==> forall j :: 0 <= j < |cands| ==> Attempt(st, call, cands[j]).Err?
    ensures r.Err? ==> r.error == Attempt(st, call, cands[|cands| - 1]).error
    decreases |cands|
  {
    match Attempt(st, call, cands[0])
    case Ok(n) => Ok(Hit(0, n))
    case Err(e) =>
      if |cands| == 1 then Err(e)
      else
        match FirstHit(st, call, cands[1..])
        case Ok(h) => Ok(Hit(h.index + 1, h.node))
        case Err(e') => Err(e')
  }

  /** The order getattr and open try: literal, `.flac`, `.mp3`. `.ogg` is never tried. */
  function Candidates(orig: string): (c: seq<string>)
    ensures |c| == 3 && c[0] == orig
    ensures forall k :: 0 <= k < |c| ==> c[k] == orig || LastDot(orig).Some?
  {
    [orig, ReplaceExt(orig, Flac), ReplaceExt(orig, Mp3)]
  }

  /**
   The order readlink tries: `.flac`, then `.mp3`. There is no separate try of
   the literal name, but a candidate is the literal path when it has no dot or
   already ends in that candidate's extension.
   */
  function LinkCandidates(orig: string): (c: seq<string>)
    ensures c == Candidates(orig)[1..]
  {
    [ReplaceExt(orig, Flac), ReplaceExt(orig, Mp3)]
  }

  /** readlink reads the literal path exactly when it has no dot or already ends in `.flac` or `.mp3`. */
  lemma LinkCandidatesLiteral(orig: string)
    ensures orig in LinkCandidates(orig) <==> LastDot(orig).None? || Suffix(orig) in {Flac, Mp3}
    ensures LinkCandidates(orig)[0] == orig <==> LastDot(orig).None? || Suffix(orig) == Flac
  {
    if LastDot(orig).Some? {
      var i := LastDot(orig).value;
      ReplaceExtOwnSuffix(orig);
      if ReplaceExt(orig, Flac) == orig {
        assert orig[i..] == ReplaceExt(orig, Flac)[i..] == Flac;
      }
      if ReplaceExt(orig, Mp3) == orig {
        assert orig[i..] == ReplaceExt(orig, Mp3)[i..] == Mp3;
      }
    }
  }

  /** Only the candidate paths are consulted: stores that agree on them resolve alike. */
  lemma {:induction false} FirstHitAgrees(st1: Store, st2: Store, call: Call, cands: seq<string>)
    requires |cands| > 0
    requires forall j :: 0 <= j < |cands| ==> Attempt(st1, call, cands[j]) == Attempt(st2, call, cands[j])
    ensures FirstHit(st1, call, cands) == FirstHit(st2, call, cands)
    decreases |cands|
  {
    if |cands| > 1 {
      FirstHitAgrees(st1, st2, call, cands[1..]);
    }
  }

  /** Adding a candidate at the end only matters when every earlier one failed. */
  lemma {:induction false} FirstHitAppend(st: Store, call: Call, cands: seq<string>, last: string)
    requires |cands| > 0
    ensures FirstHit(st, call, cands).Ok? ==> FirstHit(st, call, cands + [last]) == FirstHit(st, call, cands)
    ensures FirstHit(st, call, cands).Err? ==>
      match Attempt(st, call, last)
      case Ok(n) => FirstHit(st, call, cands + [last]) == Ok(Hit(|cands|, n))
      case Err(e) => FirstHit(st, call, cands + [last]) == Err(e)
    decreases |cands|
  {
    var all := cands + [last];
    assert all[0] == cands[0];
    if Attempt(st, call, cands[0]).Err? {
      if |cands| == 1 {
        assert all[1..] == [last];
      } else {
        assert all[1..] == cands[1..] + [last];
        FirstHitAppend(st, call, cands[1..], last);
      }
    }
  }
}

=== FILE: translate.dfy ===
/**
 The backing-root translation of transcodefs.c and the in-place extension
 rewrite its callers perform on the translated buffer.
 */
module Translate {
  import opened Names

  /** The mount parameters the core reads: backing root and threshold in kbps. */
  datatype Config = Config(basepath: string, threshold: nat)

  /** The threshold used when none is given on the command line. */
  const DefaultThreshold: nat := 256

  /** A heap buffer: the C string it holds and the bytes allocated for it. */
  datatype Buffer = Buffer(text: string, capacity: nat)
  {
    /** The text and its terminating NUL fit in the allocation. */
    predicate HoldsText()
    {
      |text| + 1 <= capacity
    }
  }

  /**
   translate_path: the backing root followed by the virtual path, in a buffer
   with one byte to spare after the terminator.
   */
  function TranslatePath(cfg: Config, path: string): (b: Buffer)
    ensures b.HoldsText() && b.capacity == |b.text| + 2
    ensures |b.text| == |cfg.basepath| + |path|
    ensures b.text[..|cfg.basepath|] == cfg.basepath && b.text[|cfg.basepath|..] == path
  {
    var text := cfg.basepath + path;
    Buffer(text, |cfg.basepath| + |path| + 2)
  }

  /** How an in-place conversion of a buffer ends. */
  datatype Fault = NullDeref | Overflow
  datatype InPlace = Rewritten(buf: Buffer) | Fault(fault: Fault)

  /**
   `strcpy(strrchr(text, '.'), ext)` on the buffer, when there is a dot: it
   writes |ext| + 1 bytes from the dot on, which overflows the allocation
   unless they fit.
   */
  function RewriteInPlace(b: Buffer, ext: string): (r: InPlace)
    requires b.HoldsText()
    ensures r.Rewritten? ==> r.buf.capacity == b.capacity && r.buf.HoldsText()
    ensures r.Rewritten? ==> r.buf.text == ReplaceExt(b.text, ext)
    ensures r.Fault? <==> LastDot(b.text).Some? && LastDot(b.text).value + |ext| + 1 > b.capacity
    ensures r.Fault? ==> r.fault == Overflow
  {
    match LastDot(b.text)
    case None => Rewritten(b)
    case Some(i) =>
      if i + |ext| + 1 <= b.capacity then Rewritten(Buffer(ReplaceExt(b.text, ext), b.capacity))
      else Fault(Overflow)
  }

  /**
   The two spare bytes of a translated path hold the terminator and ONE
   character of growth: rewriting its extension in place stays inside the
   allocation exactly when the new extension is at most one character longer
   than the old one.
   */
  lemma TranslatedRewriteFitsIff(cfg: Config, path: string, ext: string)
    requires LastDot(cfg.basepath + path).Some?
    ensures RewriteInPlace(TranslatePath(cfg, path), ext).Rewritten?
        <==> |ext| <= |Suffix(cfg.basepath + path)| + 1
  {
    var b := TranslatePath(cfg, path);
    assert b.text == cfg.basepath + path;
    var i := LastDot(b.text).value;
    assert |Suffix(b.text)| == |b.text| - i;
  }

  /** Turning `.mp3` into `.flac` in place, the case the sizing was made for, fits. */
  lemma Mp3ToFlacFits(cfg: Config, path: string)
    requires Suffix(cfg.basepath + path) == Mp3
    ensures RewriteInPlace(TranslatePath(cfg, path), Flac).Rewritten?
  {
    TranslatedRewriteFitsIff(cfg, path, Flac);
  }

  /** Any extension shorter than four characters is overrun by the `.flac` rewrite. */
  lemma ShortExtensionOverflows(cfg: Config, path: string)
    requires LastDot(cfg.basepath + path).Some?
    requires |Suffix(cfg.basepath + path)| < 4
    ensures RewriteInPlace(TranslatePath(cfg, path), Flac) == Fault(Overflow)
  {
    TranslatedRewriteFitsIff(cfg, path, Flac);
  }

  /** A concrete instance: root "/m", virtual path "/a.b" overruns by two bytes. */
  lemma OverflowExample()
    ensures RewriteInPlace(TranslatePath(Config("/m", DefaultThreshold), "/a.b"), Flac) == Fault(Overflow)
  {
    var s := "/m" + "/a.b";
    assert s == "/m/a.b";
    LastDotUnique(s, 4);
    ShortExtensionOverflows(Config("/m", DefaultThreshold), "/a.b");
  }
}
